=== FILE: README.md ===
# Metadata forms: a verified model

A Dafny model of the form layer of a document-management system's metadata
feature (`metadata/forms.py`). It covers two pieces of logic.

- **The relationship form.** It links a document type to a metadata type in one of three states: none, optional or required.
  - The join table is an immutable map from the (document type, metadata type) pair to the row's `required` flag, so at most one row exists per pair.
  - An audit log records each persistence call together with the acting user.
  - `save` compares the chosen state with the one captured when the form was built. When they differ it runs exactly one of three handlers. The source picks the handler by building a method name; here an exhaustive `match` does it.
  - Deleting a row that does not exist raises `DoesNotExist`, as the source's unguarded `.get()` does. The model proves that this cannot happen when the pair's row has not changed since the form was built. It also exhibits the stale-form case where it does happen.
- **The metadata value form rules.** These cover:
  - whether the value is required, and the shown type name;
  - the initial `update` toggle;
  - the lookup choice list, and the read-only error display when a template fails;
  - the `clean` rule;
  - the remove-form variant, which has no value field and no checks;
  - the add form's choice set.

Modules:
- `Wrappers` holds `Option` and `Result`.
- `Models` holds the entities and the store.
- `Relationship` and `RelationshipProofs` cover the tri-state form.
- `RelationshipFormSet` covers a batch of relationship forms sharing one user, and saving them in turn.
- `MetadataForms` and `MetadataFormsProofs` cover the value, remove and add forms.

Calls into code outside the file are parameters:
- `get_required_for` is passed in as a boolean.
- `get_lookup_values` and `get_default_value` are passed in as `Result`s carrying the evaluated value or the exception text.
- `validate_value` is a function parameter returning a `Result`.
- `MetadataType.objects.get_for_document_type` is a function parameter.

Edge cases of the code that the model keeps:
- Without a document type, a `queryset` keyword is not consumed (metadata/forms.py:132-143). It reaches the base form's constructor, which raises `TypeError`. `AddFormQueryset` returns `Err(UnexpectedKeyword("queryset"))`.
- When a lookup template fails, the value field has already been replaced by a choice field (line 61) and is never given its choices or `required` setting (lines 68-69). So it keeps the framework defaults for a choice field: required, with no choices. `LookupField` models this.
- When the form was built without `main_model`, `initial_relationship_type` is never set, and `save` fails on the attribute lookup. `Save` returns `Err(NoInitialType)`.

`models.py` is not part of this model. The `required` column of the join table is assumed to default to false; this is `Relationship.RequiredFieldDefault`, the value the optional branch's create relies on.

## Model

| member | source | states |
|---|---|---|
| Relationship.ParseName | metadata/forms.py:187-203 | the radio field accepts exactly the three declared choice values |
| Relationship.GetRelationshipType | metadata/forms.py:230-239 | the state read for a pair is the unique state whose row representation equals the stored row |
| Relationship.SaveRelationshipNone | metadata/forms.py:251-252 | succeeds iff the pair has a row (otherwise `DoesNotExist`); then the row is gone, no other pair changes, the table shrinks by one, and one `Deleted` event is logged for the user |
| Relationship.SaveRelationshipOptional | metadata/forms.py:254-264 | afterwards the pair reads as optional and no other pair changes; an existing row is updated in place (same size, `Updated(false)`), otherwise exactly one row is created with the field default (size plus one, `Created`) |
| Relationship.SaveRelationshipRequired | metadata/forms.py:266-277 | afterwards the pair reads as required and no other pair changes; an existing row is updated (same size), otherwise exactly one row is created with `required` true |
| Relationship.Dispatch | metadata/forms.py:245-277 | the handler chosen by name fails only for "none" on a missing row; on success the pair reads as the chosen state, other pairs are untouched, and exactly one event is appended, by the user, for the pair, recording the handler's call: a delete for none, an update of the existing row, or a create (with the field default for optional, with `required` true for required) |
| Relationship.NewRelationshipForm | metadata/forms.py:205-218 | the form captures the initial state (matching the stored row) exactly when a main model is given, and shows the label of the side that is not the main model |
| Relationship.Save | metadata/forms.py:241-249 | no change at all when the chosen state equals the initial one; failure exactly when there is no initial state (`NoInitialType`) or "none" is chosen for a missing row (`DoesNotExist`); every successful save of a changed choice leaves the pair in the chosen state with exactly one event by the form's user for the pair, recording the delete, update or create that the chosen handler makes; other pairs are untouched |
| RelationshipProofs.NameRoundTrip | metadata/forms.py:187-194 | every state parses back from its choice value |
| RelationshipProofs.ParseNameRoundTrip | metadata/forms.py:187-203 | every accepted choice value is the name of the state it parses to |
| RelationshipProofs.HandlerNameInjective | metadata/forms.py:245-249 | distinct states build distinct handler names, so the dispatch by name is unambiguous |
| RelationshipProofs.GetRelationshipTypeCases | metadata/forms.py:230-239 | no row iff none; a required row iff required; a non-required row iff optional |
| RelationshipProofs.SameStateIffSameEntry | metadata/forms.py:220-239 | two tables read the same state for a pair iff they hold the same row for it |
| RelationshipProofs.BuiltFormIsCurrent | metadata/forms.py:211-223 | a form built with a main model stays current for any later table whose row for the pair is unchanged |
| RelationshipProofs.DeleteReachedOnlyWithRow | metadata/forms.py:241-252 | on a current form, the delete handler with its unguarded `.get()` is dispatched only when the row exists |
| RelationshipProofs.SaveOnCurrentForm | metadata/forms.py:241-277 | on a current form `save` never fails, the pair ends in the chosen state, other pairs keep their rows, and there is one event by the form's user when the choice changed (the handler's delete, update or create) and none otherwise |
| RelationshipProofs.SaveRowCount | metadata/forms.py:251-277 | on a current form the table grows by one on none to optional or required, shrinks by one on the reverse, and keeps its size otherwise |
| RelationshipProofs.StaleFormDeleteRaises | metadata/forms.py:251-252 | a form that read an optional row, saved as none after the row vanished, raises `DoesNotExist` |
| RelationshipFormSet.NewFormSet | metadata/forms.py:285-289 | one form per initial entry, each carrying the form set's user and its entry's pair; each entry that names a main model gives a form current for the table it was built from |
| RelationshipFormSet.SaveAll | metadata/forms.py:241-289 | saving a batch built from the table over distinct pairs never fails and leaves every pair in its chosen state; pairs no form edits are unchanged; the log keeps its prefix and grows by exactly one event per form whose choice changed, namely the delete, update or create that form's handler makes on its pair; in every run, each new event is by a form's user for that form's pair |
| RelationshipFormSet.FreshFormSetSaves | metadata/forms.py:217-289 | a freshly built batch whose entries all name a main model is current for its table, and saving any of its forms against that table with any choice succeeds and reaches that choice |
| MetadataForms.DisplayName | metadata/forms.py:44-56 | the shown name starts with the label (or the name when the label is empty) and carries " (Required)" after it exactly when required |
| MetadataForms.PairEach | metadata/forms.py:64-65 | each lookup value becomes the choice (value, value), in order |
| MetadataForms.LookupChoices | metadata/forms.py:64-68 | the paired values, preceded by the ('', '------') placeholder exactly when the type is optional |
| MetadataForms.LookupField | metadata/forms.py:59-79 | a working lookup gives a choice field with those choices and the type's requiredness; a failing one gives a read-only, required choice field with no choices, showing "Lookup value error: " and the message |
| MetadataForms.WithDefault | metadata/forms.py:81-92 | an evaluated default becomes the initial value; a failing one shows "Default value error: " and the message, read-only |
| MetadataForms.NewMetadataForm | metadata/forms.py:31-92 | the update toggle starts set iff the type is required (and never on the remove form); the shown name and id come from the type, and are unset on a form built without initial data; the value field is text, or the lookup's choice list, or, when the lookup fails, a required choice field with no choices; it has no initial value unless a default template is set or the lookup failed; it is read-only exactly when a set template failed to evaluate |
| MetadataForms.Clean | metadata/forms.py:94-116 | on data that passed per-field cleaning, `clean` raises "required" exactly when the form is bound, the type is required, the value is empty and update is unset; with update set the value is replaced by the validator's result and its failure is reported; with update unset and the required check passed, the data comes back unchanged |
| MetadataForms.AddFormQueryset | metadata/forms.py:131-145 | with a document type: the passed queryset or that type's metadata types; without one: empty, or a `TypeError` when a queryset keyword was passed |
| MetadataFormsProofs.DisplayNameShowsRequired | metadata/forms.py:44-56 | the shown name is the base name plus the marker iff required, and the bare base name otherwise |
| MetadataFormsProofs.PairEachOffers | metadata/forms.py:64-65 | the paired list offers exactly the lookup values |
| MetadataFormsProofs.OfferedValues | metadata/forms.py:64-68 | the choice list offers exactly the lookup values, plus the blank value iff the type is optional |
| MetadataFormsProofs.BuiltLookupFieldOffers | metadata/forms.py:59-72 | a constructed form with a working lookup offers exactly the evaluated values, plus blank iff optional |
| MetadataFormsProofs.OptionalFormAtInitialToggleAccepts | metadata/forms.py:44-116 | for an optional type, `clean` returns any data that passed per-field cleaning unchanged when the toggle is at its initial (unset) setting |
| MetadataFormsProofs.RequiredFormAtInitialToggleValidates | metadata/forms.py:24-116 | for a required type the toggle starts set, so `clean` never raises the "is required" error on data left at that setting, and passes the value to the validator |
| MetadataFormsProofs.RequiredEmptyUnsetRejected | metadata/forms.py:102-108 | for a required type, `clean` always rejects an empty value with update unset, using the "is required" message |
| MetadataFormsProofs.RemoveFormSkipsChecks | metadata/forms.py:148-158 | the remove form has no value field, its toggle starts unset, and its `clean` returns the data as submitted |
| MetadataFormsProofs.AddFormWithoutDocumentTypeAcceptsNothing | metadata/forms.py:122-145 | without a document type the add form offers nothing, so no selection is accepted |

## Left out

- Django form and formset machinery is left out as framework behaviour. This covers widgets, the `Media` script, CSS classes, lazy translation and the hidden id field's rendering. Messages are modelled untranslated.
- Field-level cleaning before `clean` is left out. This includes the value field's own required check and the choice-subset check. `Clean` takes the cleaned data as given, and `Offers` and `AcceptsSelection` state what those checks accept.
- Clean: describes `clean` only on data that passed per-field cleaning. For a type that is required when the form is built, the value field is itself required (lines 45 and 69, or 61 when the lookup fails). An empty value therefore fails per-field cleaning and is dropped from `cleaned_data`, and line 103 then raises an uncaught `KeyError` whether `update` is set or not. That crash is not modelled, so the "is required" error at lines 104-108 is reached only when `get_required_for` answers differently at build time and at clean time.
- RequiredEmptyUnsetRejected: states what `clean` does on such data. Under the per-field check described in the `Clean` line above, a form built for a required type ends in `KeyError` at line 103 on an empty value instead.
- RequiredFormAtInitialToggleValidates: holds for values that passed per-field cleaning. An empty value for a required type never reaches the validator; it ends in `KeyError` at line 103.
- OptionalFormAtInitialToggleAccepts: holds for values that passed per-field cleaning. A value outside a lookup field's choices is rejected before `clean` runs.
- ORM internals are reduced to a map from pair to `required`. This covers query sets, `exists`/`get`/`save`/`delete`, `MultipleObjectsReturned`, and transactions. Uniqueness per pair is therefore structural rather than enforced.
- `get_required_for`, `get_lookup_values`, `get_default_value`, `validate_value` and `get_for_document_type` are external. They are parameters, and their own logic is not modelled.
- `MetadataTypeForm` (lines 166-183) is left out. It only substitutes template fields and joins help text.
- Concurrency between building a relationship form and saving it is not modelled. It appears only as the "row unchanged" precondition of the proofs, and as the stale-form example.
- The iteration over a relationship form set belongs to the calling view. `SaveAll` models it as saving each form in order and stopping at the first error.
- SaveAll: on an error it returns only the error and does not state what the table holds. Whether the earlier forms' writes persist or are rolled back depends on the caller's transaction handling, which is not part of this model.
- `get_relationship_choices` (lines 225-228) is left out. It duplicates `get_relationship` and nothing in the file calls it.

=== FILE: metadata_forms.dfy ===
/**
 * The per-document metadata value form, its remove-form variant and the
 * bulk add form. Calls into the template engine and the validator are
 * parameters: their results (a value or an error message) are inputs here.
 */
module MetadataForms {
  import opened Wrappers
  import opened Models

  /** The value form and its remove-form subclass. */
  datatype Variant = EditForm | RemoveForm

  /** The declared initial of the `update` toggle: checked for editing, unchecked ("Remove") for removal. */
  function DeclaredUpdateInitial(v: Variant): bool {
    v.EditForm?
  }

  /** One entry of a choice list: submitted value and displayed text. */
  datatype Choice = Choice(value: string, display: string)

  datatype FieldKind = TextField | ChoiceField(choices: seq<Choice>)

  /** The value field: its kind, whether it must be filled, its initial value, and a read-only widget. */
  datatype ValueField = ValueField(kind: FieldKind, required: bool, initial: Option<string>, readOnly: bool)

  /** The initial data that binds a form to a metadata type and a document type. */
  datatype Binding = Binding(metadataType: MetadataType, documentType: DocumentType)

  /** A constructed form; `value` is absent on the remove form. */
  datatype MetadataForm = MetadataForm(
    variant: Variant, binding: Option<Binding>, typeId: Option<nat>, typeName: Option<string>,
    value: Option<ValueField>, updateInitial: bool)

  const RequiredSuffix: string := " (Required)"
  const Placeholder: Choice := Choice("", "------")

  /** The label when one is set, else the name. */
  function BaseName(mt: MetadataType): string {
    if mt.labelText != "" then mt.labelText else mt.name
  }

  /** The shown type name: the base name, followed by the required marker exactly when required. */
  function DisplayName(mt: MetadataType, required: bool): (r: string)
    ensures |r| == |BaseName(mt)| + (if required then |RequiredSuffix| else 0)
    ensures r[..|BaseName(mt)|] == BaseName(mt)
    ensures required ==> r[|BaseName(mt)|..] == RequiredSuffix
  {
    BaseName(mt) + (if required then RequiredSuffix else "")
  }

  /** Pairs each lookup value with itself. */
  function PairEach(vs: seq<string>): (r: seq<Choice>)
    ensures |r| == |vs|
    ensures forall i :: 0 <= i < |vs| ==> r[i] == Choice(vs[i], vs[i])
  {
    if vs == [] then [] else [Choice(vs[0], vs[0])] + PairEach(vs[1..])
  }

  /** The choice list of a lookup field: the paired values, behind a blank placeholder when optional. */
  function LookupChoices(vs: seq<string>, required: bool): (r: seq<Choice>)
    ensures |r| == |vs| + (if required then 0 else 1)
    ensures !required ==> r[0] == Placeholder
    ensures forall i :: 0 <= i < |vs| ==> r[|r| - |vs| + i] == Choice(vs[i], vs[i])
  {
    if required then PairEach(vs) else [Placeholder] + PairEach(vs)
  }

  /** The list offers `v` as a submittable value. */
  predicate Offers(choices: seq<Choice>, v: string) {
    exists i :: 0 <= i < |choices| && choices[i].value == v
  }

  function LookupErrorText(e: string): string {
    "Lookup value error: " + e
  }

  function DefaultErrorText(e: string): string {
    "Default value error: " + e
  }

  /**
   * The value field once a lookup template is set. The field is already a
   * choice field (with the framework's defaults: required, no choices) when
   * the lookup is evaluated; a failure leaves it so, read-only, showing the error.
   */
  function LookupField(required: bool, lookup: Result<seq<string>, string>): (f: ValueField)
    ensures f.kind.ChoiceField?
    ensures lookup.Ok? ==> f.kind.choices == LookupChoices(lookup.value, required) && f.required == required
    ensures lookup.Ok? ==> !f.readOnly && f.initial.None?
    ensures lookup.Err? ==> f.readOnly && f.initial == Some(LookupErrorText(lookup.error))
    ensures lookup.Err? ==> f.kind.choices == [] && f.required
  {
    match lookup
    case Ok(vs) => ValueField(ChoiceField(LookupChoices(vs, required)), required, None, false)
    case Err(e) => ValueField(ChoiceField([]), true, Some(LookupErrorText(e)), true)
  }

  /** Applies an evaluated default: it becomes the initial value, or its error is shown read-only. */
  function WithDefault(f: ValueField, default: Result<string, string>): (g: ValueField)
    ensures g.kind == f.kind && g.required == f.required
    ensures default.Ok? ==> g.initial == Some(default.value) && g.readOnly == f.readOnly
    ensures default.Err? ==> g.initial == Some(DefaultErrorText(default.error)) && g.readOnly
  {
    match default
    case Ok(v) => f.(initial := Some(v))
    case Err(e) => f.(initial := Some(DefaultErrorText(e)), readOnly := true)
  }

  /**
   * Builds a form. `required` is what the metadata type reports for the
   * document type; `lookup` and `default` are what evaluating the type's
   * templates yields, consulted only when the template is set.
   */
  function NewMetadataForm(
    variant: Variant, binding: Option<Binding>, required: bool,
    lookup: Result<seq<string>, string>, default: Result<string, string>): (f: MetadataForm)
    ensures f.variant == variant && f.binding == binding
    ensures f.value.None? <==> variant == RemoveForm
    ensures binding.None? ==> f.updateInitial == DeclaredUpdateInitial(variant)
    ensures binding.None? ==> f.typeId.None? && f.typeName.None?
    ensures binding.None? && f.value.Some? ==> f.value.value == ValueField(TextField, false, None, false)
    ensures binding.Some? ==> f.updateInitial == (required && variant == EditForm)
    ensures binding.Some? ==>
              f.typeId == Some(binding.value.metadataType.pk) &&
              f.typeName == Some(DisplayName(binding.value.metadataType, required))
    ensures binding.Some? && f.value.Some? ==>
              var mt := binding.value.metadataType;
              var v := f.value.value;
              && (mt.lookup == "" ==> v.kind == TextField)
              && (mt.lookup != "" && lookup.Ok? ==> v.kind == ChoiceField(LookupChoices(lookup.value, required)))
              && (mt.lookup == "" || lookup.Ok? ==> v.required == required)
              && (mt.lookup != "" && lookup.Err? ==> v.kind == ChoiceField([]) && v.required)
              && (mt.lookup != "" && lookup.Err? && mt.default == "" ==>
                    v.readOnly && v.initial == Some(LookupErrorText(lookup.error)))
              && (mt.default == "" && (mt.lookup == "" || lookup.Ok?) ==> v.initial.None?)
              && (mt.default != "" && default.Ok? ==> v.initial == Some(default.value))
              && (mt.default != "" && default.Err? ==>
                    v.readOnly && v.initial == Some(DefaultErrorText(default.error)))
              && (v.readOnly <==> (mt.lookup != "" && lookup.Err?) || (mt.default != "" && default.Err?))
  {
    match binding
    case None =>
      var value := if variant.EditForm? then Some(ValueField(TextField, false, None, false)) else None;
      MetadataForm(variant, None, None, None, value, DeclaredUpdateInitial(variant))
    case Some(b) =>
      var mt := b.metadataType;
      var plain := ValueField(TextField, required, None, false);
      var looked := if mt.lookup != "" then LookupField(required, lookup) else plain;
      var field := if mt.default != "" then WithDefault(looked, default) else looked;
      MetadataForm(
        variant, binding, Some(mt.pk), Some(DisplayName(mt, required)),
        if variant.EditForm? then Some(field) else None,
        if required then DeclaredUpdateInitial(variant) else false)
  }

  /** The form's cleaned values: the submitted value and the `update` toggle. */
  datatype CleanedData = CleanedData(value: string, update: bool)

  datatype FormError = RequiredMissing(message: string) | InvalidValue(message: string)

  function RequiredMessage(mt: MetadataType): string {
    "\"" + mt.labelText + "\" is required for this document type."
  }

  /** The metadata type's validator and parser: the stored value, or the failure's message. */
  type Validator = (DocumentType, string) -> Result<string, string>

  /**
   * Form-level validation. The edit form rejects an empty value for a
   * required type unless `update` is set; when `update` is set the value
   * is replaced by the validator's result. The remove form, and a form
   * never bound to a metadata type, return the data unchanged.
   */
  function Clean(form: MetadataForm, required: bool, data: CleanedData, validate: Validator)
    : (r: Result<CleanedData, FormError>)
    ensures (r.Err? && r.error.RequiredMissing?) <==>
              (form.variant == EditForm && form.binding.Some? && required && data.value == "" && !data.update)
    ensures r.Err? && r.error.RequiredMissing? ==>
              r.error.message == RequiredMessage(form.binding.value.metadataType)
    ensures r.Ok? ==> r.value.update == data.update
    ensures form.variant == RemoveForm || form.binding.None? ==> r == Ok(data)
    ensures form.variant == EditForm && form.binding.Some? && !data.update && !(required && data.value == "") ==>
              r == Ok(data)
    ensures form.variant == EditForm && form.binding.Some? && data.update ==>
              var checked := validate(form.binding.value.documentType, data.value);
              && (r.Ok? <==> checked.Ok?)
              && (r.Ok? ==> r.value.value == checked.value)
              && (r.Err? ==> r.error == InvalidValue(checked.error))
  {
    match form.binding
    case None => Ok(data)
    case Some(b) =>
      if form.variant.RemoveForm? then Ok(data)
      else if required && data.value == "" && !data.update then
        Err(RequiredMissing(RequiredMessage(b.metadataType)))
      else if data.update then
        match validate(b.documentType, data.value)
        case Ok(v) => Ok(data.(value := v))
        case Err(m) => Err(InvalidValue(m))
      else Ok(data)
  }

  /** `TypeError`: an unexpected keyword argument reached the base form. */
  datatype AddFormError = UnexpectedKeyword(name: string)

  /**
   * The selectable metadata types of the bulk add form. With a document
   * type: an explicitly passed queryset, else the types associated with that
   * document type. Without one: nothing, and a passed queryset, which is then
   * not consumed, is rejected by the base form.
   */
  function AddFormQueryset(
    documentType: Option<DocumentType>, queryset: Option<set<nat>>,
    forDocumentType: DocumentType -> set<nat>): (r: Result<set<nat>, AddFormError>)
    ensures documentType.None? && queryset.None? ==> r == Ok({})
    ensures documentType.None? && queryset.Some? ==> r == Err(UnexpectedKeyword("queryset"))
    ensures documentType.Some? && queryset.Some? ==> r == Ok(queryset.value)
    ensures documentType.Some? && queryset.None? ==> r == Ok(forDocumentType(documentType.value))
  {
    match documentType
    case Some(d) => Ok(queryset.GetOr(forDocumentType(d)))
    case None =>
      if queryset.Some? then Err(UnexpectedKeyword("queryset")) else Ok({})
  }

  /** The add form's multiple-choice field is required: a non-empty subset of the offered types. */
  predicate AcceptsSelection(offered: set<nat>, selected: set<nat>) {
    selected != {} && selected <= offered
  }
}

=== FILE: metadata_forms_proofs.dfy ===
/** Properties of the metadata value, remove and add forms that relate several operations. */
module MetadataFormsProofs {
  import opened Wrappers
  import opened Models
  import opened MetadataForms

  /** The shown name tells a required type from an optional one. */
  lemma DisplayNameShowsRequired(mt: MetadataType, required: bool)
    ensures DisplayName(mt, required) == BaseName(mt) + RequiredSuffix <==> required
    ensures !required ==> DisplayName(mt, required) == BaseName(mt)
  {
  }

  /** Pairing each value with itself offers exactly the values. */
  lemma PairEachOffers(vs: seq<string>, v: string)
    ensures Offers(PairEach(vs), v) <==> v in vs
  {
  }

  /**
   * A lookup field offers exactly the lookup values, plus the blank value
   * when the type is optional.
   */
  lemma OfferedValues(vs: seq<string>, required: bool, v: string)
    ensures Offers(LookupChoices(vs, required), v) <==> v in vs || (!required && v == "")
  {
  }

  /**
   * A form built for a type with a working lookup offers exactly the
   * evaluated values, plus the blank value when the type is optional.
   */
  lemma BuiltLookupFieldOffers(
    b: Binding, required: bool, vs: seq<string>, default: Result<string, string>, v: string)
    requires b.metadataType.lookup != ""
    ensures
      var f := NewMetadataForm(EditForm, Some(b), required, Ok(vs), default);
      && f.value.Some? && f.value.value.kind.ChoiceField?
      && (Offers(f.value.value.kind.choices, v) <==> v in vs || (!required && v == ""))
  {
  }

  /**
   * For an optional type, submitting any value with the toggle left at its
   * initial setting passes validation unchanged.
   */
  lemma OptionalFormAtInitialToggleAccepts(
    b: Binding, lookup: Result<seq<string>, string>, default: Result<string, string>,
    v: string, validate: Validator)
    ensures
      var f := NewMetadataForm(EditForm, Some(b), false, lookup, default);
      Clean(f, false, CleanedData(v, f.updateInitial), validate) == Ok(CleanedData(v, false))
  {
  }

  /**
   * For a required type the toggle starts set, so submitting with it left
   * there is never rejected as missing: the value goes to the validator.
   */
  lemma RequiredFormAtInitialToggleValidates(
    b: Binding, lookup: Result<seq<string>, string>, default: Result<string, string>,
    v: string, validate: Validator)
    ensures
      var f := NewMetadataForm(EditForm, Some(b), true, lookup, default);
      var r := Clean(f, true, CleanedData(v, f.updateInitial), validate);
      && f.updateInitial
      && (r.Ok? <==> validate(b.documentType, v).Ok?)
      && (r.Ok? ==> r.value == CleanedData(validate(b.documentType, v).value, true))
  {
  }

  /**
   * For a required type, an empty value with the toggle cleared is always
   * rejected, whatever the validator would say.
   */
  lemma RequiredEmptyUnsetRejected(
    b: Binding, lookup: Result<seq<string>, string>, default: Result<string, string>, validate: Validator)
    ensures
      var f := NewMetadataForm(EditForm, Some(b), true, lookup, default);
      Clean(f, true, CleanedData("", false), validate) == Err(RequiredMissing(RequiredMessage(b.metadataType)))
  {
  }

  /**
   * The remove form has no value field, starts with its toggle cleared,
   * and never rejects nor rewrites the submitted data.
   */
  lemma RemoveFormSkipsChecks(
    binding: Option<Binding>, required: bool, lookup: Result<seq<string>, string>,
    default: Result<string, string>, data: CleanedData, validate: Validator)
    ensures
      var f := NewMetadataForm(RemoveForm, binding, required, lookup, default);
      f.value.None? && !f.updateInitial && Clean(f, required, data, validate) == Ok(data)
  {
  }

  /** Without a document type the add form accepts no selection at all. */
  lemma AddFormWithoutDocumentTypeAcceptsNothing(forDocumentType: DocumentType -> set<nat>, selected: set<nat>)
    ensures AddFormQueryset(None, None, forDocumentType).Ok?
    ensures !AcceptsSelection(AddFormQueryset(None, None, forDocumentType).value, selected)
  {
  }
}

=== FILE: models.dfy ===
/**
 * The persistent entities the forms read and write. The relational store is
 * abstracted to the one table the relationship form mutates: the join rows
 * between document types and metadata types, keyed by the pair of primary
 * keys. Because the table is a map, at most one row exists per pair.
 * Every mutation appends an audit event naming the acting user.
 */
module Models {
  import opened Wrappers

  datatype DocumentType = DocumentType(pk: nat, labelText: string)

  /** A metadata type; an empty `default` or `lookup` template means "not set". */
  datatype MetadataType = MetadataType(
    pk: nat, name: string, labelText: string, default: string, lookup: string)

  /** The user a mutation is attributed to. */
  datatype User = User(id: nat)

  /** Identity of one join row: (document type, metadata type). */
  datatype Pair = Pair(documentType: nat, metadataType: nat)

  /** The join table: each present pair maps to its `required` flag. */
  type Rows = map<Pair, bool>

  datatype Action = Created(required: bool) | Updated(required: bool) | Deleted

  /** One persistence call (`save` or `delete`) with its actor. */
  datatype Event = Event(actor: User, action: Action, pair: Pair)

  datatype Db = Db(rows: Rows, log: seq<Event>)

  function PairOf(d: DocumentType, m: MetadataType): Pair {
    Pair(d.pk, m.pk)
  }

  /** The row stored for `p`, if any: `required` when present. */
  function Entry(rows: Rows, p: Pair): Option<bool> {
    if p in rows then Some(rows[p]) else None
  }

  /** `a` and `b` hold the same row (or none) for every pair other than `p`. */
  ghost predicate SameElsewhere(a: Rows, b: Rows, p: Pair) {
    forall k :: k != p ==> Entry(a, k) == Entry(b, k)
  }
}

=== FILE: relationship.dfy ===
/**
 * The document-type / metadata-type relationship form: a three-way choice
 * (none, optional, required) read from the join table, and a `save` that
 * writes the difference between the chosen and the initially read state.
 */
module Relationship {
  import opened Wrappers
  import opened Models

  /** The three relationship states; the source spells them as strings. */
  datatype RelationshipType = NoRelationship | Optional | Required

  /** The choice value submitted for each state. */
  function Name(t: RelationshipType): string {
    match t
    case NoRelationship => "none"
    case Optional => "optional"
    case Required => "required"
  }

  /** Validation of the radio field: only the three declared choices are accepted. */
  function ParseName(s: string): (r: Option<RelationshipType>)
    ensures r.Some? <==> s in {"none", "optional", "required"}
  {
    if s == "none" then Some(NoRelationship)
    else if s == "optional" then Some(Optional)
    else if s == "required" then Some(Required)
    else None
  }

  /** The method name `save` looks up for a chosen state. */
  function HandlerName(t: RelationshipType): string {
    "save_relationship_" + Name(t)
  }

  /** The row that represents each state: no row, a non-required row, a required row. */
  function EntryFor(t: RelationshipType): Option<bool> {
    match t
    case NoRelationship => None
    case Optional => Some(false)
    case Required => Some(true)
  }

  /**
   * Reads the pair's row as a state. `EntryFor` is injective, so the
   * ensures fixes the result: no row gives none, a required row gives
   * required, a non-required row gives optional.
   */
  function GetRelationshipType(rows: Rows, p: Pair): (t: RelationshipType)
    ensures EntryFor(t) == Entry(rows, p)
  {
    if p in rows then
      if rows[p] then Required else Optional
    else NoRelationship
  }

  /** The `required` value a row gets when created without naming it. */
  const RequiredFieldDefault: bool := false

  /** `DoesNotExist`: `.get()` found no row. `NoInitialType`: the form never computed its initial state. */
  datatype SaveError = DoesNotExist | NoInitialType

  /** Deletes the pair's row; `.get()` raises when there is none. */
  function SaveRelationshipNone(db: Db, p: Pair, user: User): (r: Result<Db, SaveError>)
    ensures r.Ok? <==> p in db.rows
    ensures r.Err? ==> r.error == DoesNotExist
    ensures r.Ok? ==> GetRelationshipType(r.value.rows, p) == NoRelationship
    ensures r.Ok? ==> SameElsewhere(r.value.rows, db.rows, p)
    ensures r.Ok? ==> |r.value.rows| == |db.rows| - 1
    ensures r.Ok? ==> r.value.log == db.log + [Event(user, Deleted, p)]
  {
    if p in db.rows then
      assert db.rows.Keys == (db.rows - {p}).Keys + {p};
      Ok(Db(db.rows - {p}, db.log + [Event(user, Deleted, p)]))
    else Err(DoesNotExist)
  }

  /**
   * Clears `required` on an existing row, or creates the row without naming
   * `required` (so it takes the field default).
   */
  function SaveRelationshipOptional(db: Db, p: Pair, user: User): (r: Db)
    ensures GetRelationshipType(r.rows, p) == Optional
    ensures SameElsewhere(r.rows, db.rows, p)
    ensures p in db.rows ==> |r.rows| == |db.rows|
    ensures p !in db.rows ==> |r.rows| == |db.rows| + 1
    ensures p in db.rows ==> r.log == db.log + [Event(user, Updated(false), p)]
    ensures p !in db.rows ==> r.log == db.log + [Event(user, Created(RequiredFieldDefault), p)]
  {
    if p in db.rows then
      assert db.rows[p := false].Keys == db.rows.Keys;
      Db(db.rows[p := false], db.log + [Event(user, Updated(false), p)])
    else
      assert db.rows[p := RequiredFieldDefault].Keys == db.rows.Keys + {p};
      Db(db.rows[p := RequiredFieldDefault], db.log + [Event(user, Created(RequiredFieldDefault), p)])
  }

  /** Sets `required` on an existing row, or creates the row with `required` true. */
  function SaveRelationshipRequired(db: Db, p: Pair, user: User): (r: Db)
    ensures GetRelationshipType(r.rows, p) == Required
    ensures SameElsewhere(r.rows, db.rows, p)
    ensures p in db.rows ==> |r.rows| == |db.rows|
    ensures p !in db.rows ==> |r.rows| == |db.rows| + 1
    ensures p in db.rows ==> r.log == db.log + [Event(user, Updated(true), p)]
    ensures p !in db.rows ==> r.log == db.log + [Event(user, Created(true), p)]
  {
    if p in db.rows then
      assert db.rows[p := true].Keys == db.rows.Keys;
      Db(db.rows[p := true], db.log + [Event(user, Updated(true), p)])
    else
      assert db.rows[p := true].Keys == db.rows.Keys + {p};
      Db(db.rows[p := true], db.log + [Event(user, Created(true), p)])
  }

  /**
   * The persistence call the handler for `t` makes on the pair: a delete for
   * none; for the other two, a save of the existing row with its flag set, or
   * of a new row (without naming `required` for optional).
   */
  function ActionFor(t: RelationshipType, rows: Rows, p: Pair): Action {
    match t
    case NoRelationship => Deleted
    case Optional => if p in rows then Updated(false) else Created(RequiredFieldDefault)
    case Required => if p in rows then Updated(true) else Created(true)
  }

  /**
   * The handler selected by name: exactly one of the three, and only the
   * delete can fail. Whatever succeeds leaves the pair in state `t`.
   */
  function Dispatch(t: RelationshipType, db: Db, p: Pair, user: User): (r: Result<Db, SaveError>)
    ensures r.Err? <==> t == NoRelationship && p !in db.rows
    ensures r.Ok? ==> GetRelationshipType(r.value.rows, p) == t
    ensures r.Ok? ==> SameElsewhere(r.value.rows, db.rows, p)
    ensures r.Ok? ==> |r.value.log| == |db.log| + 1 && r.value.log[..|db.log|] == db.log
    ensures r.Ok? ==> r.value.log[|db.log|] == Event(user, ActionFor(t, db.rows, p), p)
  {
    match t
    case NoRelationship => SaveRelationshipNone(db, p, user)
    case Optional => Ok(SaveRelationshipOptional(db, p, user))
    case Required => Ok(SaveRelationshipRequired(db, p, user))
  }

  /** The form's initial data: the pair, and which side is the page's main object. */
  datatype FormInitial = FormInitial(
    documentType: DocumentType, metadataType: MetadataType, mainModel: Option<string>)

  /** A constructed relationship form; `initialType` is unset when no main model was given. */
  datatype RelationshipForm = RelationshipForm(
    pair: Pair, user: User, labelText: Option<string>, initialType: Option<RelationshipType>)

  /**
   * Builds the form: when a main model is named, shows the other side's
   * label and captures the pair's current state from `db`.
   */
  function NewRelationshipForm(db: Db, init: FormInitial, user: User): (f: RelationshipForm)
    ensures f.pair == PairOf(init.documentType, init.metadataType) && f.user == user
    ensures f.initialType.Some? <==> init.mainModel.Some?
    ensures f.initialType.Some? ==> EntryFor(f.initialType.value) == Entry(db.rows, f.pair)
    ensures init.mainModel == Some("metadata_type") ==> f.labelText == Some(init.documentType.labelText)
    ensures init.mainModel.Some? && init.mainModel != Some("metadata_type") ==>
              f.labelText == Some(init.metadataType.labelText)
    ensures init.mainModel.None? ==> f.labelText.None?
  {
    var p := PairOf(init.documentType, init.metadataType);
    match init.mainModel
    case None => RelationshipForm(p, user, None, None)
    case Some(main) =>
      var text := if main == "metadata_type" then init.documentType.labelText else init.metadataType.labelText;
      RelationshipForm(p, user, Some(text), Some(GetRelationshipType(db.rows, p)))
  }

  /**
   * Saves the chosen state: nothing happens when it equals the initial
   * state; otherwise exactly one handler runs, attributed to the form's user.
   */
  function Save(form: RelationshipForm, chosen: RelationshipType, db: Db): (r: Result<Db, SaveError>)
    ensures form.initialType.None? ==> r == Err(NoInitialType)
    ensures form.initialType == Some(chosen) ==> r == Ok(db)
    ensures r.Err? <==>
              (form.initialType.None? ||
               (form.initialType != Some(chosen) && chosen == NoRelationship && form.pair !in db.rows))
    ensures r.Ok? ==> SameElsewhere(r.value.rows, db.rows, form.pair)
    ensures r.Err? && form.initialType.Some? ==> r.error == DoesNotExist
    ensures r.Ok? && form.initialType.Some? && form.initialType != Some(chosen) ==>
              GetRelationshipType(r.value.rows, form.pair) == chosen &&
              |r.value.log| == |db.log| + 1 && r.value.log[..|db.log|] == db.log &&
              r.value.log[|db.log|] == Event(form.user, ActionFor(chosen, db.rows, form.pair), form.pair)
  {
    match form.initialType
    case None => Err(NoInitialType)
    case Some(initial) =>
      if chosen != initial then Dispatch(chosen, db, form.pair, form.user)
      else Ok(db)
  }
}

=== FILE: relationship_formset.dfy ===
/**
 * A batch of relationship forms sharing one acting user, and the caller's
 * loop that saves each form in turn.
 */
module RelationshipFormSet {
  import opened Wrappers
  import opened Models
  import opened Relationship
  import opened RelationshipProofs

  /** Builds one form per initial entry, each attributed to `user`. */
  function NewFormSet(db: Db, user: User, initials: seq<FormInitial>): (forms: seq<RelationshipForm>)
    ensures |forms| == |initials|
    ensures forall i :: 0 <= i < |forms| ==>
              forms[i].user == user &&
              forms[i].pair == PairOf(initials[i].documentType, initials[i].metadataType)
    ensures forall i :: 0 <= i < |forms| && initials[i].mainModel.Some? ==> Current(forms[i], db)
  {
    seq(|initials|, i requires 0 <= i < |initials| => NewRelationshipForm(db, initials[i], user))
  }

  /** No two forms of the batch edit the same pair. */
  predicate DistinctPairs(forms: seq<RelationshipForm>) {
    forall i, j :: 0 <= i < j < |forms| ==> forms[i].pair != forms[j].pair
  }

  /** Every form of the batch is current for `db`. */
  predicate AllCurrent(forms: seq<RelationshipForm>, db: Db) {
    forall i :: 0 <= i < |forms| ==> Current(forms[i], db)
  }

  /** `k` is the pair of one of the first `n` forms. */
  predicate EditedBy(forms: seq<RelationshipForm>, n: nat, k: Pair)
    requires n <= |forms|
  {
    exists j :: 0 <= j < n && forms[j].pair == k
  }

  /**
   * Saves `forms[i]` with choice `chosen[i]` for each i in order, stopping
   * at the first failure. When the forms were built from `db` for distinct
   * pairs, no save fails and every pair ends in its chosen state; pairs no
   * form edits are untouched in any case, and every persistence call comes
   * from one of the forms, for its pair. A batch built from `db` over
   * distinct pairs makes exactly one call per form whose choice changed.
   */
  method SaveAll(forms: seq<RelationshipForm>, chosen: seq<RelationshipType>, db: Db)
    returns (r: Result<Db, SaveError>)
    requires |chosen| == |forms|
    ensures AllCurrent(forms, db) && DistinctPairs(forms) ==> r.Ok?
    ensures AllCurrent(forms, db) && DistinctPairs(forms) ==>
              forall i :: 0 <= i < |forms| ==> GetRelationshipType(r.value.rows, forms[i].pair) == chosen[i]
    ensures r.Ok? ==> forall k :: !EditedBy(forms, |forms|, k) ==> Entry(r.value.rows, k) == Entry(db.rows, k)
    ensures r.Ok? ==> |db.log| <= |r.value.log| <= |db.log| + |forms| && r.value.log[..|db.log|] == db.log
    ensures AllCurrent(forms, db) && DistinctPairs(forms) ==>
              |r.value.log| == |db.log| + ChangedCount(forms, chosen, |forms|)
    ensures AllCurrent(forms, db) && DistinctPairs(forms) ==>
              forall j :: 0 <= j < |forms| && Changed(forms, chosen, j) ==>
                ExpectedEvent(forms, chosen, db, j) in r.value.log[|db.log|..]
    ensures r.Ok? ==> forall e :: e in r.value.log[|db.log|..] ==> MadeByOneOf(forms, |forms|, e)
  {
    ghost var intact := AllCurrent(forms, db) && DistinctPairs(forms);
    var cur := db;
    var i := 0;
    while i < |forms|
      invariant 0 <= i <= |forms|
      invariant forall k :: !EditedBy(forms, i, k) ==> Entry(cur.rows, k) == Entry(db.rows, k)
      invariant intact ==> forall j :: 0 <= j < i ==> GetRelationshipType(cur.rows, forms[j].pair) == chosen[j]
      invariant |db.log| <= |cur.log| <= |db.log| + i && cur.log[..|db.log|] == db.log
      invariant forall e :: e in cur.log[|db.log|..] ==> MadeByOneOf(forms, i, e)
      invariant intact ==> |cur.log| == |db.log| + ChangedCount(forms, chosen, i)
      invariant intact ==> forall j :: 0 <= j < i && Changed(forms, chosen, j) ==>
                  ExpectedEvent(forms, chosen, db, j) in cur.log[|db.log|..]
    {
      if intact {
        UneditedPairIsCurrent(forms, db, cur, i);
        SaveOnCurrentForm(forms[i], chosen[i], cur);
      }
      var step := Save(forms[i], chosen[i], cur);
      if step.Err? {
        return Err(step.error);
      }
      var next := step.value;
      FramePreserved(forms, i, db, cur, next);
      if intact {
        ChosenPreserved(forms, chosen, i, cur, next);
        EventsPreserved(forms, chosen, i, db, cur, next);
      }
      LogPreserved(forms, i, db, cur, next);
      cur := next;
      i := i + 1;
    }
    r := Ok(cur);
  }

  /** Event `e` was made by the user of one of the first `n` forms, for that form's pair. */
  predicate MadeByOneOf(forms: seq<RelationshipForm>, n: nat, e: Event)
    requires n <= |forms|
  {
    exists j :: 0 <= j < n && e.actor == forms[j].user && e.pair == forms[j].pair
  }

  /** Form `j`'s choice differs from the state it captured. */
  predicate Changed(forms: seq<RelationshipForm>, chosen: seq<RelationshipType>, j: nat)
    requires j < |forms| == |chosen|
  {
    forms[j].initialType != Some(chosen[j])
  }

  /** The persistence call form `j` makes when saved against `db`'s rows, by its user for its pair. */
  function ExpectedEvent(forms: seq<RelationshipForm>, chosen: seq<RelationshipType>, db: Db, j: nat): Event
    requires j < |forms| == |chosen|
  {
    Event(forms[j].user, ActionFor(chosen[j], db.rows, forms[j].pair), forms[j].pair)
  }

  /** How many of the first `n` forms have a choice that differs from their initial state. */
  function ChangedCount(forms: seq<RelationshipForm>, chosen: seq<RelationshipType>, n: nat): nat
    requires n <= |forms| == |chosen|
  {
    if n == 0 then 0
    else ChangedCount(forms, chosen, n - 1) + (if forms[n - 1].initialType != Some(chosen[n - 1]) then 1 else 0)
  }

  /** The next form's pair has not been edited yet, so the form is still current. */
  lemma UneditedPairIsCurrent(forms: seq<RelationshipForm>, db: Db, cur: Db, i: nat)
    requires i < |forms| && AllCurrent(forms, db) && DistinctPairs(forms)
    requires forall k :: !EditedBy(forms, i, k) ==> Entry(cur.rows, k) == Entry(db.rows, k)
    ensures Current(forms[i], cur)
  {
  }

  /** Saving form `i` keeps untouched every pair none of the first `i + 1` forms edits. */
  lemma FramePreserved(forms: seq<RelationshipForm>, i: nat, db: Db, cur: Db, next: Db)
    requires i < |forms|
    requires forall k :: !EditedBy(forms, i, k) ==> Entry(cur.rows, k) == Entry(db.rows, k)
    requires SameElsewhere(next.rows, cur.rows, forms[i].pair)
    ensures forall k :: !EditedBy(forms, i + 1, k) ==> Entry(next.rows, k) == Entry(db.rows, k)
  {
  }

  /** Saving form `i` of a batch over distinct pairs keeps the states chosen by earlier forms. */
  lemma ChosenPreserved(forms: seq<RelationshipForm>, chosen: seq<RelationshipType>, i: nat, cur: Db, next: Db)
    requires i < |forms| == |chosen| && DistinctPairs(forms)
    requires forall j :: 0 <= j < i ==> GetRelationshipType(cur.rows, forms[j].pair) == chosen[j]
    requires SameElsewhere(next.rows, cur.rows, forms[i].pair)
    requires GetRelationshipType(next.rows, forms[i].pair) == chosen[i]
    ensures forall j :: 0 <= j < i + 1 ==> GetRelationshipType(next.rows, forms[j].pair) == chosen[j]
  {
  }

  /**
   * Saving form `i` of a current batch over distinct pairs keeps the events
   * of earlier changed forms and, when its own choice changed, adds the call
   * it would make on the original table (its pair's row is still untouched).
   */
  lemma EventsPreserved(
    forms: seq<RelationshipForm>, chosen: seq<RelationshipType>, i: nat, db: Db, cur: Db, next: Db)
    requires i < |forms| == |chosen| && AllCurrent(forms, db) && DistinctPairs(forms)
    requires |db.log| <= |cur.log| && cur.log[..|db.log|] == db.log
    requires forall k :: !EditedBy(forms, i, k) ==> Entry(cur.rows, k) == Entry(db.rows, k)
    requires forall j :: 0 <= j < i && Changed(forms, chosen, j) ==>
               ExpectedEvent(forms, chosen, db, j) in cur.log[|db.log|..]
    requires Save(forms[i], chosen[i], cur) == Ok(next)
    ensures forall j :: 0 <= j < i + 1 && Changed(forms, chosen, j) ==>
              ExpectedEvent(forms, chosen, db, j) in next.log[|db.log|..]
  {
    var p := forms[i].pair;
    assert !EditedBy(forms, i, p);
    assert Entry(cur.rows, p) == Entry(db.rows, p);
    if Changed(forms, chosen, i) {
      assert next.log == cur.log + [next.log[|cur.log|]];
      assert next.log[|db.log|..] == cur.log[|db.log|..] + [next.log[|cur.log|]];
      assert next.log[|cur.log|] == ExpectedEvent(forms, chosen, db, i);
    } else {
      assert next == cur;
    }
  }

  /** Saving form `i` appends at most one event, made by that form's user for its pair. */
  lemma LogPreserved(forms: seq<RelationshipForm>, i: nat, db: Db, cur: Db, next: Db)
    requires i < |forms|
    requires |db.log| <= |cur.log| <= |db.log| + i && cur.log[..|db.log|] == db.log
    requires forall e :: e in cur.log[|db.log|..] ==> MadeByOneOf(forms, i, e)
    requires next == cur ||
             (|next.log| == |cur.log| + 1 && next.log[..|cur.log|] == cur.log &&
              next.log[|cur.log|].actor == forms[i].user && next.log[|cur.log|].pair == forms[i].pair)
    ensures |db.log| <= |next.log| <= |db.log| + i + 1 && next.log[..|db.log|] == db.log
    ensures forall e :: e in next.log[|db.log|..] ==> MadeByOneOf(forms, i + 1, e)
  {
    if next != cur {
      assert next.log == cur.log + [next.log[|cur.log|]];
      assert next.log[|db.log|..] == cur.log[|db.log|..] + [next.log[|cur.log|]];
    }
    forall e | e in next.log[|db.log|..]
      ensures MadeByOneOf(forms, i + 1, e)
    {
      if e in cur.log[|db.log|..] {
        var j :| 0 <= j < i && e.actor == forms[j].user && e.pair == forms[j].pair;
        assert 0 <= j < i + 1;
      } else {
        assert e.actor == forms[i].user && e.pair == forms[i].pair;
      }
    }
  }

  /**
   * A freshly built batch whose entries all name a main model is current
   * for its table, so saving any one of its forms against that table, with
   * any choice, succeeds and leaves the form's pair in the chosen state.
   */
  lemma FreshFormSetSaves(db: Db, user: User, initials: seq<FormInitial>, chosen: seq<RelationshipType>)
    requires forall i :: 0 <= i < |initials| ==> initials[i].mainModel.Some?
    requires |chosen| == |initials|
    ensures AllCurrent(NewFormSet(db, user, initials), db)
    ensures forall i :: 0 <= i < |initials| ==>
              var form := NewFormSet(db, user, initials)[i];
              Save(form, chosen[i], db).Ok? && GetRelationshipType(Save(form, chosen[i], db).value.rows, form.pair) == chosen[i]
  {
  }
}

=== FILE: relationship_proofs.dfy ===
/** Properties of the relationship form that relate several of its operations. */
module RelationshipProofs {
  import opened Wrappers
  import opened Models
  import opened Relationship

  /** Every state survives the trip through its choice value. */
  lemma NameRoundTrip(t: RelationshipType)
    ensures ParseName(Name(t)) == Some(t)
  {
  }

  /** An accepted choice value is exactly the name of the state it parses to. */
  lemma ParseNameRoundTrip(s: string)
    ensures ParseName(s).Some? ==> Name(ParseName(s).value) == s
  {
  }

  /** Distinct states select distinct handlers, so dispatch by name is unambiguous. */
  lemma HandlerNameInjective(a: RelationshipType, b: RelationshipType)
    ensures HandlerName(a) == HandlerName(b) ==> a == b
  {
    var prefix := |"save_relationship_"|;
    if HandlerName(a) == HandlerName(b) {
      assert HandlerName(a)[prefix..] == Name(a);
      assert HandlerName(b)[prefix..] == Name(b);
    }
  }

  /** The reader's three cases, each in both directions. */
  lemma GetRelationshipTypeCases(rows: Rows, p: Pair)
    ensures GetRelationshipType(rows, p) == NoRelationship <==> p !in rows
    ensures GetRelationshipType(rows, p) == Required <==> p in rows && rows[p]
    ensures GetRelationshipType(rows, p) == Optional <==> p in rows && !rows[p]
  {
  }

  /** Two tables read the same state for `p` exactly when they hold the same row for `p`. */
  lemma SameStateIffSameEntry(a: Rows, b: Rows, p: Pair)
    ensures GetRelationshipType(a, p) == GetRelationshipType(b, p) <==> Entry(a, p) == Entry(b, p)
  {
  }

  /**
   * The form still describes `db` at its pair: it captured its initial
   * state and the pair's row has not changed since.
   */
  predicate Current(form: RelationshipForm, db: Db) {
    form.initialType == Some(GetRelationshipType(db.rows, form.pair))
  }

  /** A form built from `db0` stays current as long as its pair's row is untouched. */
  lemma BuiltFormIsCurrent(db0: Db, db: Db, init: FormInitial, user: User)
    requires init.mainModel.Some?
    requires Entry(db.rows, PairOf(init.documentType, init.metadataType)) ==
             Entry(db0.rows, PairOf(init.documentType, init.metadataType))
    ensures Current(NewRelationshipForm(db0, init, user), db)
  {
  }

  /**
   * The delete handler, whose `.get()` is unguarded, is only dispatched
   * when the row exists, provided the form is current.
   */
  lemma DeleteReachedOnlyWithRow(form: RelationshipForm, chosen: RelationshipType, db: Db)
    requires Current(form, db)
    requires form.initialType != Some(chosen) && chosen == NoRelationship
    ensures form.pair in db.rows
  {
  }

  /**
   * On a current form, `save` never fails, leaves the pair in the chosen
   * state, keeps every other pair's row, and makes exactly one persistence
   * call by the form's user when the choice changed (none otherwise).
   */
  lemma SaveOnCurrentForm(form: RelationshipForm, chosen: RelationshipType, db: Db)
    requires Current(form, db)
    ensures Save(form, chosen, db).Ok?
    ensures GetRelationshipType(Save(form, chosen, db).value.rows, form.pair) == chosen
    ensures SameElsewhere(Save(form, chosen, db).value.rows, db.rows, form.pair)
    ensures form.initialType == Some(chosen) ==> Save(form, chosen, db).value == db
    ensures form.initialType != Some(chosen) ==>
              var after := Save(form, chosen, db).value;
              |after.log| == |db.log| + 1 && after.log[..|db.log|] == db.log &&
              after.log[|db.log|] == Event(form.user, ActionFor(chosen, db.rows, form.pair), form.pair)
  {
  }

  /** How many rows a change of state adds (+1), removes (-1) or keeps (0). */
  function RowDelta(from: RelationshipType, to: RelationshipType): int {
    if from == to then 0
    else if from == NoRelationship then 1
    else if to == NoRelationship then -1
    else 0
  }

  /**
   * Saving a current form changes the table size by the delta of its
   * transition: creating adds exactly one row, deleting removes exactly one,
   * switching between optional and required updates in place.
   */
  lemma SaveRowCount(form: RelationshipForm, chosen: RelationshipType, db: Db)
    requires Current(form, db)
    ensures Save(form, chosen, db).Ok?
    ensures |Save(form, chosen, db).value.rows| == |db.rows| + RowDelta(form.initialType.value, chosen)
  {
  }

  /**
   * The precondition matters: a form that read an optional row, saved as
   * none after the row was deleted elsewhere, raises `DoesNotExist`.
   */
  lemma StaleFormDeleteRaises()
    ensures
      var p := Pair(1, 2);
      var db0 := Db(map[p := false], []);
      var init := FormInitial(DocumentType(1, "Invoice"), MetadataType(2, "number", "Number", "", ""),
                              Some("metadata_type"));
      var form := NewRelationshipForm(db0, init, User(7));
      form.initialType == Some(Optional) &&
      Save(form, NoRelationship, Db(map[], db0.log)) == Err(DoesNotExist)
  {
  }
}

=== FILE: wrappers.dfy ===
/** Failure-carrying datatypes used throughout the model. */
module Wrappers {

  /** A value that may be absent (a missing key, an unset keyword argument). */
  datatype Option<+T> = None | Some(value: T) {

    /** The carried value, or `default` when there is none. */
    function GetOr(default: T): T {
      match this
      case Some(v) => v
      case None => default
    }
  }

  /** The outcome of a step that may raise: `Ok` carries the value, `Err` the exception. */
  datatype Result<+T, +E> = Ok(value: T) | Err(error: E)
}
